=== FILE: README.md ===
# Property binder of the dacpac package builder

This project models the property binder of `PackageBuilder` in MSBuild.Sdk.SqlProj.
The binder configures the model options (`TSqlModelOptions`) of a SQL Server database project.
It takes build properties as name/value string pairs.
`SetProperty(name, value)` looks the name up among the options, coerces the string into the option's declared type and assigns it.
The option types are boolean, integer, string, or one of the model library's enumerations.
An unknown name, or a value that cannot be coerced, is an argument error.
`UsingVersion(version)` records the SQL Server version the model targets. It takes a typed version and does no string coercion.

The implementation of `PackageBuilder` is not part of this model.
Its observable behaviour is fixed by the unit tests in `test/BuildDacpac.Tests/ModelBuilderTest.cs`, and the model follows those tests.

Modules, leaves first:

- `Wrappers` (`wrappers.dfy`): `Option` and `Result`. They stand in for the exceptions the builder throws.
- `Decimal` (`decimal.dfy`): the integer literal grammar (an optional sign, then one or more decimal digits).
  It also holds the parser and a canonical printer that the parser inverts.
- `Enums` (`enums.dfy`): the enumerations as label tables, exact-label parsing, and the `SqlServerVersion` tag.
- `Coercion` (`coercion.dfy`): `ValueKind = Bool | Int | Str | Enum(id)`, typed `Value`s, `Coerce` and its inverse `Render`.
- `Registry` (`registry.dfy`): the declared options as a reference list `Declared` of descriptors (name and declared kind).
  `Find` matches a name character for character, and `Lookup` gives the found option's kind. Both are proved to agree with `Declared`.
  It replaces the reflective property lookup. The list and the search are split by name length only to keep the verifier's work small.
- `Binder` (`binder.dfy`): the builder state, `SetProperty` and `UsingVersion`.
- `BinderTests` (`binder_tests.dfy`): the unit tests' expectations, stated as lemmas over the model.
  There is one lemma per row of the valid-property test data.

The options instance is a map from option name to the value assigned so far.
A name that is absent still holds the default supplied by the model library.
A failed `SetProperty` returns an error and no new builder, so the caller's builder is the one it already had.

## Model

| member | source | states |
|---|---|---|
| Binder.SetProperty | test/BuildDacpac.Tests/ModelBuilderTest.cs:15-24 | An unknown name fails with `UnknownProperty(name)`. For a known name, the call succeeds exactly when the string coerces to the option's kind; otherwise it fails with `InvalidValue(name, raw, kind)`. After a success the option reads back as the coerced value. Well-typed options stay well-typed, and the version is kept. That other fields keep their values is a design choice of this model; the tests do not assert it. |
| Binder.SetRenderedValue | test/BuildDacpac.Tests/ModelBuilderTest.cs:21-24 | Round trip. For every registered option and every value of its kind, setting the option to that value's string form succeeds, and the option then reads back exactly that value. |
| Binder.IntOptionStoresDigits | test/BuildDacpac.Tests/ModelBuilderTest.cs:66-67 | For an integer option, any non-empty string of decimal digits is accepted and stored as the number it denotes. |
| Binder.IntOptionRejectsNonLiteral | test/BuildDacpac.Tests/ModelBuilderTest.cs:44 | For an integer option, any string outside the decimal literal grammar fails with `InvalidValue(name, raw, Int)`. |
| Binder.UsingVersion | test/BuildDacpac.Tests/ModelBuilderTest.cs:54-57 | After the call, the builder's version is the given version. That the options are unchanged is a design choice of this model; the tests do not assert it. |
| Coercion.Coerce | test/BuildDacpac.Tests/ModelBuilderTest.cs:66-77 | A result, when there is one, has the requested kind. Bool accepts exactly `"True"` (giving true) and `"False"` (giving false). Int accepts exactly the decimal literal grammar. Str returns the raw string unchanged. Enum accepts exactly the enumeration's labels and yields the member whose label is the raw string. |
| Coercion.CoerceRender | test/BuildDacpac.Tests/ModelBuilderTest.cs:66-134 | Every value of a kind has a string form, and that string coerces back to exactly that value. |
| Coercion.RenderCoerce | test/BuildDacpac.Tests/ModelBuilderTest.cs:66-134 | For every kind except Int, an accepted string is the canonical form of the value it produced. For Int, an accepted literal is the canonical form of its integer exactly when it has no `+` sign, no leading zeros and is not `-0`. |
| Decimal.Parse | test/BuildDacpac.Tests/ModelBuilderTest.cs:44 | Succeeds exactly on strings of the literal grammar (an optional sign, then one or more digits, nothing else). With a leading `-` the result is not positive; otherwise it is not negative. |
| Decimal.ParseShow | test/BuildDacpac.Tests/ModelBuilderTest.cs:66-67 | Parsing the canonical literal of any integer returns that integer. |
| Decimal.DigitsValueOfShowNat | test/BuildDacpac.Tests/ModelBuilderTest.cs:66-67 | The canonical digit string of a natural number denotes that number. |
| Decimal.ShowNatOfDigitsValue | test/BuildDacpac.Tests/ModelBuilderTest.cs:66-67 | Converse: a non-empty digit string without a leading zero (or the single digit `0`) is the canonical digit string of the number it denotes. |
| Decimal.ShowParse | test/BuildDacpac.Tests/ModelBuilderTest.cs:66-67 | A canonical literal (no `+`, no leading zeros, not `-0`) parses, and printing the parsed integer gives back the same literal. |
| Decimal.ParseSigned | test/BuildDacpac.Tests/ModelBuilderTest.cs:66-67 | Which integer a literal yields: a digit string `d`, `+d` and `-d` parse to the number `d` denotes, that number, and its negation. |
| Decimal.Show | test/BuildDacpac.Tests/ModelBuilderTest.cs:66-67 | The printed form of every integer is in the literal grammar and canonical. |
| Enums.Parse | test/BuildDacpac.Tests/ModelBuilderTest.cs:68-71 | Succeeds exactly when the string is one of the enumeration's labels. The result is a valid member of that enumeration whose label is the string. |
| Enums.ParseLabel | test/BuildDacpac.Tests/ModelBuilderTest.cs:94-95 | Parsing the label of any member of an enumeration returns that member. |
| Registry.Find | test/BuildDacpac.Tests/ModelBuilderTest.cs:64-134 | Lookup by exact, case-sensitive name: a descriptor that is found carries exactly the queried name. |
| Registry.FindSound | test/BuildDacpac.Tests/ModelBuilderTest.cs:64-134 | Whatever `Find` returns is a descriptor of the reference list `Declared` of declared options. |
| Registry.FindComplete | test/BuildDacpac.Tests/ModelBuilderTest.cs:64-134 | Every descriptor of the reference list is found by its own name. |
| Registry.FindDeclared | test/BuildDacpac.Tests/ModelBuilderTest.cs:64-134 | Both directions together: a found descriptor is declared, and a declared descriptor with the queried name is the one found. |
| Registry.LookupDeclared | test/BuildDacpac.Tests/ModelBuilderTest.cs:64-134 | A name has kind `k` exactly when the reference list declares an option of exactly that name with kind `k`. A string the list does not hold character for character, such as a case variant of a declared name, has no kind. |
| Binder.Read | test/BuildDacpac.Tests/ModelBuilderTest.cs:24 | Reading an option gives a value exactly when the option has been set. In well-typed options the value has the option's declared kind. |
| Registry.SharedTimeUnit | test/BuildDacpac.Tests/ModelBuilderTest.cs:89-130 | `TargetRecoveryTimeUnit` and `ChangeTrackingRetentionUnit` are both `TimeUnit` options, and each accepts every `TimeUnit` label. |
| BinderTests.WithPropertyUnknownProperty | test/BuildDacpac.Tests/ModelBuilderTest.cs:34 | Setting `MyUnknownProperty` fails with an unknown-property error. |
| BinderTests.WithPropertyInvalidValue | test/BuildDacpac.Tests/ModelBuilderTest.cs:44 | Setting the integer option `QueryStoreIntervalLength` to `"MyFancyText"` fails with an invalid-value error. |
| BinderTests.UsingVersionSql150 | test/BuildDacpac.Tests/ModelBuilderTest.cs:54-57 | After `UsingVersion(Sql150)` on a fresh builder, the version is `Sql150`. |
| BinderTests.ValidQueryStoreIntervalLength | test/BuildDacpac.Tests/ModelBuilderTest.cs:66 | `QueryStoreIntervalLength` is an integer option; setting it to `"1"` on a fresh builder succeeds and it reads back 1 |
| BinderTests.ValidQueryStoreFlushInterval | test/BuildDacpac.Tests/ModelBuilderTest.cs:67 | `QueryStoreFlushInterval` is an integer option; setting it to `"2"` on a fresh builder succeeds and it reads back 2 |
| BinderTests.ValidQueryStoreDesiredState | test/BuildDacpac.Tests/ModelBuilderTest.cs:68 | `QueryStoreDesiredState` is a `QueryStoreDesiredState` option; setting it to `"ReadWrite"` on a fresh builder succeeds and it reads back the member labelled `ReadWrite` |
| BinderTests.ValidQueryStoreCaptureMode | test/BuildDacpac.Tests/ModelBuilderTest.cs:69 | `QueryStoreCaptureMode` is a `QueryStoreCaptureMode` option; setting it to `"Auto"` on a fresh builder succeeds and it reads back the member labelled `Auto` |
| BinderTests.ValidParameterizationOption | test/BuildDacpac.Tests/ModelBuilderTest.cs:70 | `ParameterizationOption` is a `ParameterizationOption` option; setting it to `"Forced"` on a fresh builder succeeds and it reads back the member labelled `Forced` |
| BinderTests.ValidPageVerifyMode | test/BuildDacpac.Tests/ModelBuilderTest.cs:71 | `PageVerifyMode` is a `PageVerifyMode` option; setting it to `"TornPageDetection"` on a fresh builder succeeds and it reads back the member labelled `TornPageDetection` |
| BinderTests.ValidQueryStoreMaxStorageSize | test/BuildDacpac.Tests/ModelBuilderTest.cs:72 | `QueryStoreMaxStorageSize` is an integer option; setting it to `"3"` on a fresh builder succeeds and it reads back 3 |
| BinderTests.ValidNumericRoundAbortOn | test/BuildDacpac.Tests/ModelBuilderTest.cs:73 | `NumericRoundAbortOn` is a boolean option; setting it to `"True"` on a fresh builder succeeds and it reads back `true` |
| BinderTests.ValidNestedTriggersOn | test/BuildDacpac.Tests/ModelBuilderTest.cs:74 | `NestedTriggersOn` is a boolean option; setting it to `"False"` on a fresh builder succeeds and it reads back `false` |
| BinderTests.ValidHonorBrokerPriority | test/BuildDacpac.Tests/ModelBuilderTest.cs:75 | `HonorBrokerPriority` is a boolean option; setting it to `"True"` on a fresh builder succeeds and it reads back `true` |
| BinderTests.ValidFullTextEnabled | test/BuildDacpac.Tests/ModelBuilderTest.cs:76 | `FullTextEnabled` is a boolean option; setting it to `"False"` on a fresh builder succeeds and it reads back `false` |
| BinderTests.ValidFileStreamDirectoryName | test/BuildDacpac.Tests/ModelBuilderTest.cs:77 | `FileStreamDirectoryName` is a string option; setting it to `"Test"` on a fresh builder succeeds and it reads back that same string |
| BinderTests.ValidDbScopedConfigQueryOptimizerHotfixesSecondary | test/BuildDacpac.Tests/ModelBuilderTest.cs:78 | `DbScopedConfigQueryOptimizerHotfixesSecondary` is a boolean option; setting it to `"True"` on a fresh builder succeeds and it reads back `true` |
| BinderTests.ValidDbScopedConfigQueryOptimizerHotfixes | test/BuildDacpac.Tests/ModelBuilderTest.cs:79 | `DbScopedConfigQueryOptimizerHotfixes` is a boolean option; setting it to `"False"` on a fresh builder succeeds and it reads back `false` |
| BinderTests.ValidNonTransactedFileStreamAccess | test/BuildDacpac.Tests/ModelBuilderTest.cs:80 | `NonTransactedFileStreamAccess` is a `NonTransactedFileStreamAccess` option; setting it to `"ReadOnly"` on a fresh builder succeeds and it reads back the member labelled `ReadOnly` |
| BinderTests.ValidDbScopedConfigParameterSniffingSecondary | test/BuildDacpac.Tests/ModelBuilderTest.cs:81 | `DbScopedConfigParameterSniffingSecondary` is a boolean option; setting it to `"True"` on a fresh builder succeeds and it reads back `true` |
| BinderTests.ValidQueryStoreMaxPlansPerQuery | test/BuildDacpac.Tests/ModelBuilderTest.cs:82 | `QueryStoreMaxPlansPerQuery` is an integer option; setting it to `"10"` on a fresh builder succeeds and it reads back 10 |
| BinderTests.ValidQuotedIdentifierOn | test/BuildDacpac.Tests/ModelBuilderTest.cs:83 | `QuotedIdentifierOn` is a boolean option; setting it to `"False"` on a fresh builder succeeds and it reads back `false` |
| BinderTests.ValidVardecimalStorageFormatOn | test/BuildDacpac.Tests/ModelBuilderTest.cs:84 | `VardecimalStorageFormatOn` is a boolean option; setting it to `"True"` on a fresh builder succeeds and it reads back `true` |
| BinderTests.ValidTwoDigitYearCutoff | test/BuildDacpac.Tests/ModelBuilderTest.cs:85 | `TwoDigitYearCutoff` is an integer option; setting it to `"10"` on a fresh builder succeeds and it reads back 10 |
| BinderTests.ValidTrustworthy | test/BuildDacpac.Tests/ModelBuilderTest.cs:86 | `Trustworthy` is a boolean option; setting it to `"False"` on a fresh builder succeeds and it reads back `false` |
| BinderTests.ValidTransformNoiseWords | test/BuildDacpac.Tests/ModelBuilderTest.cs:87 | `TransformNoiseWords` is a boolean option; setting it to `"True"` on a fresh builder succeeds and it reads back `true` |
| BinderTests.ValidTornPageProtectionOn | test/BuildDacpac.Tests/ModelBuilderTest.cs:88 | `TornPageProtectionOn` is a boolean option; setting it to `"False"` on a fresh builder succeeds and it reads back `false` |
| BinderTests.ValidTargetRecoveryTimeUnit | test/BuildDacpac.Tests/ModelBuilderTest.cs:89 | `TargetRecoveryTimeUnit` is a `TimeUnit` option; setting it to `"Hours"` on a fresh builder succeeds and it reads back the member labelled `Hours` |
| BinderTests.ValidQueryStoreStaleQueryThreshold | test/BuildDacpac.Tests/ModelBuilderTest.cs:90 | `QueryStoreStaleQueryThreshold` is an integer option; setting it to `"42"` on a fresh builder succeeds and it reads back 42 |
| BinderTests.ValidTargetRecoveryTimePeriod | test/BuildDacpac.Tests/ModelBuilderTest.cs:91 | `TargetRecoveryTimePeriod` is an integer option; setting it to `"11"` on a fresh builder succeeds and it reads back 11 |
| BinderTests.ValidServiceBrokerOption | test/BuildDacpac.Tests/ModelBuilderTest.cs:92 | `ServiceBrokerOption` is a `ServiceBrokerOption` option; setting it to `"ErrorBrokerConversations"` on a fresh builder succeeds and it reads back the member labelled `ErrorBrokerConversations` |
| BinderTests.ValidRecursiveTriggersOn | test/BuildDacpac.Tests/ModelBuilderTest.cs:93 | `RecursiveTriggersOn` is a boolean option; setting it to `"True"` on a fresh builder succeeds and it reads back `true` |
| BinderTests.ValidDelayedDurabilityMode | test/BuildDacpac.Tests/ModelBuilderTest.cs:94 | `DelayedDurabilityMode` is a `DelayedDurabilityMode` option; setting it to `"Forced"` on a fresh builder succeeds and it reads back the member labelled `Forced` |
| BinderTests.ValidRecoveryMode | test/BuildDacpac.Tests/ModelBuilderTest.cs:95 | `RecoveryMode` is a `RecoveryMode` option; setting it to `"BulkLogged"` on a fresh builder succeeds and it reads back the member labelled `BulkLogged` |
| BinderTests.ValidReadOnly | test/BuildDacpac.Tests/ModelBuilderTest.cs:96 | `ReadOnly` is a boolean option; setting it to `"False"` on a fresh builder succeeds and it reads back `false` |
| BinderTests.ValidSupplementalLoggingOn | test/BuildDacpac.Tests/ModelBuilderTest.cs:97 | `SupplementalLoggingOn` is a boolean option; setting it to `"True"` on a fresh builder succeeds and it reads back `true` |
| BinderTests.ValidDbScopedConfigParameterSniffing | test/BuildDacpac.Tests/ModelBuilderTest.cs:98 | `DbScopedConfigParameterSniffing` is a boolean option; setting it to `"False"` on a fresh builder succeeds and it reads back `false` |
| BinderTests.ValidDbScopedConfigMaxDOPSecondary | test/BuildDacpac.Tests/ModelBuilderTest.cs:99 | `DbScopedConfigMaxDOPSecondary` is an integer option; setting it to `"12"` on a fresh builder succeeds and it reads back 12 |
| BinderTests.ValidDbScopedConfigMaxDOP | test/BuildDacpac.Tests/ModelBuilderTest.cs:100 | `DbScopedConfigMaxDOP` is an integer option; setting it to `"13"` on a fresh builder succeeds and it reads back 13 |
| BinderTests.ValidAutoShrink | test/BuildDacpac.Tests/ModelBuilderTest.cs:101 | `AutoShrink` is a boolean option; setting it to `"True"` on a fresh builder succeeds and it reads back `true` |
| BinderTests.ValidAutoCreateStatisticsIncremental | test/BuildDacpac.Tests/ModelBuilderTest.cs:102 | `AutoCreateStatisticsIncremental` is a boolean option; setting it to `"False"` on a fresh builder succeeds and it reads back `false` |
| BinderTests.ValidAutoCreateStatistics | test/BuildDacpac.Tests/ModelBuilderTest.cs:103 | `AutoCreateStatistics` is a boolean option; setting it to `"True"` on a fresh builder succeeds and it reads back `true` |
| BinderTests.ValidAutoClose | test/BuildDacpac.Tests/ModelBuilderTest.cs:104 | `AutoClose` is a boolean option; setting it to `"False"` on a fresh builder succeeds and it reads back `false` |
| BinderTests.ValidArithAbortOn | test/BuildDacpac.Tests/ModelBuilderTest.cs:105 | `ArithAbortOn` is a boolean option; setting it to `"True"` on a fresh builder succeeds and it reads back `true` |
| BinderTests.ValidAnsiWarningsOn | test/BuildDacpac.Tests/ModelBuilderTest.cs:106 | `AnsiWarningsOn` is a boolean option; setting it to `"False"` on a fresh builder succeeds and it reads back `false` |
| BinderTests.ValidAutoUpdateStatistics | test/BuildDacpac.Tests/ModelBuilderTest.cs:107 | `AutoUpdateStatistics` is a boolean option; setting it to `"True"` on a fresh builder succeeds and it reads back `true` |
| BinderTests.ValidAnsiPaddingOn | test/BuildDacpac.Tests/ModelBuilderTest.cs:108 | `AnsiPaddingOn` is a boolean option; setting it to `"False"` on a fresh builder succeeds and it reads back `false` |
| BinderTests.ValidAnsiNullDefaultOn | test/BuildDacpac.Tests/ModelBuilderTest.cs:109 | `AnsiNullDefaultOn` is a boolean option; setting it to `"True"` on a fresh builder succeeds and it reads back `true` |
| BinderTests.ValidMemoryOptimizedElevateToSnapshot | test/BuildDacpac.Tests/ModelBuilderTest.cs:110 | `MemoryOptimizedElevateToSnapshot` is a boolean option; setting it to `"False"` on a fresh builder succeeds and it reads back `false` |
| BinderTests.ValidTransactionIsolationReadCommittedSnapshot | test/BuildDacpac.Tests/ModelBuilderTest.cs:111 | `TransactionIsolationReadCommittedSnapshot` is a boolean option; setting it to `"True"` on a fresh builder succeeds and it reads back `true` |
| BinderTests.ValidAllowSnapshotIsolation | test/BuildDacpac.Tests/ModelBuilderTest.cs:112 | `AllowSnapshotIsolation` is a boolean option; setting it to `"False"` on a fresh builder succeeds and it reads back `false` |
| BinderTests.ValidCollation | test/BuildDacpac.Tests/ModelBuilderTest.cs:113 | `Collation` is a string option; setting it to `"Test"` on a fresh builder succeeds and it reads back that same string |
| BinderTests.ValidAnsiNullsOn | test/BuildDacpac.Tests/ModelBuilderTest.cs:114 | `AnsiNullsOn` is a boolean option; setting it to `"True"` on a fresh builder succeeds and it reads back `true` |
| BinderTests.ValidAutoUpdateStatisticsAsync | test/BuildDacpac.Tests/ModelBuilderTest.cs:115 | `AutoUpdateStatisticsAsync` is a boolean option; setting it to `"False"` on a fresh builder succeeds and it reads back `false` |
| BinderTests.ValidCatalogCollation | test/BuildDacpac.Tests/ModelBuilderTest.cs:116 | `CatalogCollation` is a `CatalogCollation` option; setting it to `"Latin1_General_100_CI_AS_KS_WS_SC"` on a fresh builder succeeds and it reads back the member labelled `Latin1_General_100_CI_AS_KS_WS_SC` |
| BinderTests.ValidChangeTrackingAutoCleanup | test/BuildDacpac.Tests/ModelBuilderTest.cs:117 | `ChangeTrackingAutoCleanup` is a boolean option; setting it to `"True"` on a fresh builder succeeds and it reads back `true` |
| BinderTests.ValidDbScopedConfigLegacyCardinalityEstimationSecondary | test/BuildDacpac.Tests/ModelBuilderTest.cs:118 | `DbScopedConfigLegacyCardinalityEstimationSecondary` is a boolean option; setting it to `"False"` on a fresh builder succeeds and it reads back `false` |
| BinderTests.ValidDbScopedConfigLegacyCardinalityEstimation | test/BuildDacpac.Tests/ModelBuilderTest.cs:119 | `DbScopedConfigLegacyCardinalityEstimation` is a boolean option; setting it to `"True"` on a fresh builder succeeds and it reads back `true` |
| BinderTests.ValidDBChainingOn | test/BuildDacpac.Tests/ModelBuilderTest.cs:120 | `DBChainingOn` is a boolean option; setting it to `"False"` on a fresh builder succeeds and it reads back `false` |
| BinderTests.ValidDefaultLanguage | test/BuildDacpac.Tests/ModelBuilderTest.cs:121 | `DefaultLanguage` is a string option; setting it to `"Test"` on a fresh builder succeeds and it reads back that same string |
| BinderTests.ValidDefaultFullTextLanguage | test/BuildDacpac.Tests/ModelBuilderTest.cs:122 | `DefaultFullTextLanguage` is a string option; setting it to `"Test"` on a fresh builder succeeds and it reads back that same string |
| BinderTests.ValidDateCorrelationOptimizationOn | test/BuildDacpac.Tests/ModelBuilderTest.cs:123 | `DateCorrelationOptimizationOn` is a boolean option; setting it to `"True"` on a fresh builder succeeds and it reads back `true` |
| BinderTests.ValidDatabaseStateOffline | test/BuildDacpac.Tests/ModelBuilderTest.cs:124 | `DatabaseStateOffline` is a boolean option; setting it to `"False"` on a fresh builder succeeds and it reads back `false` |
| BinderTests.ValidCursorDefaultGlobalScope | test/BuildDacpac.Tests/ModelBuilderTest.cs:125 | `CursorDefaultGlobalScope` is a boolean option; setting it to `"True"` on a fresh builder succeeds and it reads back `true` |
| BinderTests.ValidCursorCloseOnCommit | test/BuildDacpac.Tests/ModelBuilderTest.cs:126 | `CursorCloseOnCommit` is a boolean option; setting it to `"False"` on a fresh builder succeeds and it reads back `false` |
| BinderTests.ValidContainment | test/BuildDacpac.Tests/ModelBuilderTest.cs:127 | `Containment` is a `Containment` option; setting it to `"Partial"` on a fresh builder succeeds and it reads back the member labelled `Partial` |
| BinderTests.ValidConcatNullYieldsNull | test/BuildDacpac.Tests/ModelBuilderTest.cs:128 | `ConcatNullYieldsNull` is a boolean option; setting it to `"True"` on a fresh builder succeeds and it reads back `true` |
| BinderTests.ValidCompatibilityLevel | test/BuildDacpac.Tests/ModelBuilderTest.cs:129 | `CompatibilityLevel` is an integer option; setting it to `"9"` on a fresh builder succeeds and it reads back 9 |
| BinderTests.ValidChangeTrackingRetentionUnit | test/BuildDacpac.Tests/ModelBuilderTest.cs:130 | `ChangeTrackingRetentionUnit` is a `TimeUnit` option; setting it to `"Days"` on a fresh builder succeeds and it reads back the member labelled `Days` |
| BinderTests.ValidChangeTrackingRetentionPeriod | test/BuildDacpac.Tests/ModelBuilderTest.cs:131 | `ChangeTrackingRetentionPeriod` is an integer option; setting it to `"8"` on a fresh builder succeeds and it reads back 8 |
| BinderTests.ValidChangeTrackingEnabled | test/BuildDacpac.Tests/ModelBuilderTest.cs:132 | `ChangeTrackingEnabled` is a boolean option; setting it to `"False"` on a fresh builder succeeds and it reads back `false` |
| BinderTests.ValidUserAccessOption | test/BuildDacpac.Tests/ModelBuilderTest.cs:133 | `UserAccessOption` is a `UserAccessOption` option; setting it to `"Restricted"` on a fresh builder succeeds and it reads back the member labelled `Restricted` |
| BinderTests.ValidWithEncryption | test/BuildDacpac.Tests/ModelBuilderTest.cs:134 | `WithEncryption` is a boolean option; setting it to `"True"` on a fresh builder succeeds and it reads back `true` |

## Left out

- The `PackageBuilder` source is not part of this model. Its behaviour is taken from the unit tests.
- The registry holds the 69 options named in the test data, each with the kind its expected value has there. `TSqlModelOptions` is defined in the external model library (DacFx) and may have more options.
- Reflection (`typeof`, `GetProperty`, `PropertyInfo.GetValue`) is replaced by the constant descriptor table behind `Registry.Lookup` and by the options map.
- Registry.Lookup: it has no contract of its own. It is the kind of the descriptor `Find` returns, and `Registry.LookupDeclared` states its meaning against `Declared`. A contract about the list on `Lookup` itself would enter every concrete binding proof and make each of them too costly to verify.
- Registry.Find: its own contract states only that a match is exact. Agreement with the reference list `Declared` in both directions is proved separately, by `Registry.FindSound` and `Registry.FindComplete`. That the list holds the 69 options of the test data with their kinds is a matter of its contents, and the `BinderTests.Valid…` lemmas check it name by name.
- Enums.Labels: each enumeration holds the label its test uses, plus well-known SQL Server labels. The full definitions live in DacFx, so the tables do not claim to be complete. A member is identified by its position in its table, not by the library's underlying numeric value.
- Coercion.Coerce: the rules are strict (exact `"True"`/`"False"`, exact labels, plain optional-sign digits). .NET is more lenient in some ways. `bool.Parse`, `int.Parse` and `Enum.Parse` all accept surrounding whitespace. `bool.Parse` ignores case. `Enum.Parse(Type, string)` is case-sensitive, but it also accepts numeric values and comma-separated lists of labels. The tests do not exercise these cases, so strings they would also accept are outside what the model claims about the source.
- Decimal.Parse: integers are unbounded. The 32-bit range check of `int.Parse` is not modelled, and the tests do not exercise it.
- `SqlServerVersion` lists common engine versions and does not claim to be complete. The `TSqlModel` that the version is recorded on is reduced to the builder's `version` field.
- Model defaults come from DacFx. An option that was never set is simply absent from the options map.
- Last-write-wins for repeated sets, idempotence, and a sealed state after handing the options to model construction are not modelled as properties, because nothing in the tests asserts them.
- Building the `TSqlModel`, writing the dacpac package, and the MSBuild task that gathers the properties belong to external libraries or other layers.
- MSTest and Shouldly plumbing, and the test-name formatting of `GetDisplayName`, are test-runner display concerns.

=== FILE: binder.dfy ===
/** The package builder's binding of string-valued build properties onto the
    model options, and its engine-version setter. */
module Binder {
  import opened Wrappers
  import opened Coercion
  import opened Enums
  import Registry
  import Decimal

  /** The options fields assigned so far, by option name. A name that is
      absent still holds the default the model library supplies. */
  type Options = map<string, Value>

  /** Reads a field back; on well-typed options a field that was set holds a
      value of its option's declared kind. */
  function Read(o: Options, name: string): (r: Option<Value>)
    ensures r.Some? <==> name in o
    ensures r.Some? && WellTyped(o) ==> HasKind(r.value, Registry.Lookup(name).value)
  {
    if name in o then Some(o[name]) else None
  }

  /** Every assigned field is a registered option holding a value of that
      option's declared kind. */
  ghost predicate WellTyped(o: Options) {
    forall n :: n in o ==> Registry.Known(n) && HasKind(o[n], Registry.Lookup(n).value)
  }

  /** Both are raised as argument errors by the builder. */
  datatype BindError =
    | UnknownProperty(name: string)
    | InvalidValue(name: string, raw: string, expected: ValueKind)

  /** The builder state: the options being configured and the engine version
      of the model, None until a version has been chosen. */
  datatype PackageBuilder = PackageBuilder(options: Options, version: Option<SqlServerVersion>)

  const NewPackageBuilder := PackageBuilder(map[], None)

  /** Looks the name up, coerces the raw string into the option's declared
      kind and assigns the result. */
  function SetProperty(b: PackageBuilder, name: string, raw: string): (r: Result<PackageBuilder, BindError>)
    ensures !Registry.Known(name) ==> r == Failure(UnknownProperty(name))
    ensures Registry.Known(name) ==>
      (r.Success? <==> Coerce(Registry.Lookup(name).value, raw).Some?)
    ensures Registry.Known(name) && Coerce(Registry.Lookup(name).value, raw).None? ==>
      r == Failure(InvalidValue(name, raw, Registry.Lookup(name).value))
    ensures r.Success? ==> Read(r.value.options, name) == Coerce(Registry.Lookup(name).value, raw)
    ensures r.Success? ==> forall n :: n != name ==> Read(r.value.options, n) == Read(b.options, n)
    ensures r.Success? ==> r.value.version == b.version
    ensures r.Success? && WellTyped(b.options) ==> WellTyped(r.value.options)
  {
    match Registry.Lookup(name)
    case None => Failure(UnknownProperty(name))
    case Some(k) =>
      match Coerce(k, raw)
      case None => Failure(InvalidValue(name, raw, k))
      case Some(v) => Success(b.(options := b.options[name := v]))
  }

  /** Chooses the engine version directly; there is no string form to coerce. */
  function UsingVersion(b: PackageBuilder, v: SqlServerVersion): (r: PackageBuilder)
    ensures r.version == Some(v)
    ensures r.options == b.options
  {
    b.(version := Some(v))
  }

  /** Round trip: for every registered option and every value of its kind,
      setting the property to that value's string form succeeds and the field
      then reads back as exactly that value. */
  lemma SetRenderedValue(b: PackageBuilder, name: string, v: Value)
    requires Registry.Known(name) && HasKind(v, Registry.Lookup(name).value)
    ensures SetProperty(b, name, Render(v)).Success?
    ensures Read(SetProperty(b, name, Render(v)).value.options, name) == Some(v)
  {
    CoerceRender(v, Registry.Lookup(name).value);
  }

  /** An integer option stores a plain digit string as the integer it
      denotes. */
  lemma IntOptionStoresDigits(b: PackageBuilder, name: string, digits: string)
    requires Registry.Lookup(name) == Some(Int)
    requires |digits| > 0 && Decimal.AllDigits(digits)
    ensures SetProperty(b, name, digits).Success?
    ensures Read(SetProperty(b, name, digits).value.options, name)
         == Some(IntValue(Decimal.DigitsValue(digits)))
  {
  }

  /** An integer option rejects every string outside the decimal literal
      grammar, and reports the option, the offending string and the kind. */
  lemma IntOptionRejectsNonLiteral(b: PackageBuilder, name: string, raw: string)
    requires Registry.Lookup(name) == Some(Int)
    requires !Decimal.IsLiteral(raw)
    ensures SetProperty(b, name, raw) == Failure(InvalidValue(name, raw, Int))
  {
  }
}

=== FILE: binder_tests.dfy ===
/** The expectations of the package builder's unit tests, stated over the
    model. Enumeration members are written as positions in the label tables
    of the Enums module. */
module BinderTests {
  import opened Wrappers
  import opened Coercion
  import opened Enums
  import opened Binder

  /** Setting the property on a fresh builder succeeds and the option then
      reads back as the expected typed value. Each Valid lemma below is one
      row of the valid-property test data. */
  predicate BindsTo(name: string, raw: string, expected: Value) {
    var r := SetProperty(NewPackageBuilder, name, raw);
    r.Success? && Read(r.value.options, name) == Some(expected)
  }

  lemma ValidQueryStoreIntervalLength()
    ensures BindsTo("QueryStoreIntervalLength", "1", IntValue(1))
  {
    SetRenderedValue(NewPackageBuilder, "QueryStoreIntervalLength", IntValue(1));
    assert Render(IntValue(1)) == "1";
  }

  lemma ValidQueryStoreFlushInterval()
    ensures BindsTo("QueryStoreFlushInterval", "2", IntValue(2))
  {
    SetRenderedValue(NewPackageBuilder, "QueryStoreFlushInterval", IntValue(2));
    assert Render(IntValue(2)) == "2";
  }

  lemma ValidQueryStoreDesiredState()
    ensures BindsTo("QueryStoreDesiredState", "ReadWrite", EnumValue(EnumMember(QueryStoreDesiredState, 2)))
  {
    SetRenderedValue(NewPackageBuilder, "QueryStoreDesiredState", EnumValue(EnumMember(QueryStoreDesiredState, 2)));
    assert Render(EnumValue(EnumMember(QueryStoreDesiredState, 2))) == "ReadWrite";
  }

  lemma ValidQueryStoreCaptureMode()
    ensures BindsTo("QueryStoreCaptureMode", "Auto", EnumValue(EnumMember(QueryStoreCaptureMode, 1)))
  {
    SetRenderedValue(NewPackageBuilder, "QueryStoreCaptureMode", EnumValue(EnumMember(QueryStoreCaptureMode, 1)));
    assert Render(EnumValue(EnumMember(QueryStoreCaptureMode, 1))) == "Auto";
  }

  lemma ValidParameterizationOption()
    ensures BindsTo("ParameterizationOption", "Forced", EnumValue(EnumMember(ParameterizationOption, 1)))
  {
    SetRenderedValue(NewPackageBuilder, "ParameterizationOption", EnumValue(EnumMember(ParameterizationOption, 1)));
    assert Render(EnumValue(EnumMember(ParameterizationOption, 1))) == "Forced";
  }

  lemma ValidPageVerifyMode()
    ensures BindsTo("PageVerifyMode", "TornPageDetection", EnumValue(EnumMember(PageVerifyMode, 1)))
  {
    SetRenderedValue(NewPackageBuilder, "PageVerifyMode", EnumValue(EnumMember(PageVerifyMode, 1)));
    assert Render(EnumValue(EnumMember(PageVerifyMode, 1))) == "TornPageDetection";
  }

  lemma ValidQueryStoreMaxStorageSize()
    ensures BindsTo("QueryStoreMaxStorageSize", "3", IntValue(3))
  {
    SetRenderedValue(NewPackageBuilder, "QueryStoreMaxStorageSize", IntValue(3));
    assert Render(IntValue(3)) == "3";
  }

  lemma ValidNumericRoundAbortOn()
    ensures BindsTo("NumericRoundAbortOn", "True", BoolValue(true))
  {
    SetRenderedValue(NewPackageBuilder, "NumericRoundAbortOn", BoolValue(true));
    assert Render(BoolValue(true)) == "True";
  }

  lemma ValidNestedTriggersOn()
    ensures BindsTo("NestedTriggersOn", "False", BoolValue(false))
  {
    SetRenderedValue(NewPackageBuilder, "NestedTriggersOn", BoolValue(false));
    assert Render(BoolValue(false)) == "False";
  }

  lemma ValidHonorBrokerPriority()
    ensures BindsTo("HonorBrokerPriority", "True", BoolValue(true))
  {
    SetRenderedValue(NewPackageBuilder, "HonorBrokerPriority", BoolValue(true));
    assert Render(BoolValue(true)) == "True";
  }

  lemma ValidFullTextEnabled()
    ensures BindsTo("FullTextEnabled", "False", BoolValue(false))
  {
    SetRenderedValue(NewPackageBuilder, "FullTextEnabled", BoolValue(false));
    assert Render(BoolValue(false)) == "False";
  }

  lemma ValidFileStreamDirectoryName()
    ensures BindsTo("FileStreamDirectoryName", "Test", StrValue("Test"))
  {
    SetRenderedValue(NewPackageBuilder, "FileStreamDirectoryName", StrValue("Test"));
    assert Render(StrValue("Test")) == "Test";
  }

  lemma ValidDbScopedConfigQueryOptimizerHotfixesSecondary()
    ensures BindsTo("DbScopedConfigQueryOptimizerHotfixesSecondary", "True", BoolValue(true))
  {
    SetRenderedValue(NewPackageBuilder, "DbScopedConfigQueryOptimizerHotfixesSecondary", BoolValue(true));
    assert Render(BoolValue(true)) == "True";
  }

  lemma ValidDbScopedConfigQueryOptimizerHotfixes()
    ensures BindsTo("DbScopedConfigQueryOptimizerHotfixes", "False", BoolValue(false))
  {
    SetRenderedValue(NewPackageBuilder, "DbScopedConfigQueryOptimizerHotfixes", BoolValue(false));
    assert Render(BoolValue(false)) == "False";
  }

  lemma ValidNonTransactedFileStreamAccess()
    ensures BindsTo("NonTransactedFileStreamAccess", "ReadOnly", EnumValue(EnumMember(NonTransactedFileStreamAccess, 1)))
  {
    SetRenderedValue(NewPackageBuilder, "NonTransactedFileStreamAccess", EnumValue(EnumMember(NonTransactedFileStreamAccess, 1)));
    assert Render(EnumValue(EnumMember(NonTransactedFileStreamAccess, 1))) == "ReadOnly";
  }

  lemma ValidDbScopedConfigParameterSniffingSecondary()
    ensures BindsTo("DbScopedConfigParameterSniffingSecondary", "True", BoolValue(true))
  {
    SetRenderedValue(NewPackageBuilder, "DbScopedConfigParameterSniffingSecondary", BoolValue(true));
    assert Render(BoolValue(true)) == "True";
  }

  lemma ValidQueryStoreMaxPlansPerQuery()
    ensures BindsTo("QueryStoreMaxPlansPerQuery", "10", IntValue(10))
  {
    SetRenderedValue(NewPackageBuilder, "QueryStoreMaxPlansPerQuery", IntValue(10));
    assert Render(IntValue(10)) == "10";
  }

  lemma ValidQuotedIdentifierOn()
    ensures BindsTo("QuotedIdentifierOn", "False", BoolValue(false))
  {
    SetRenderedValue(NewPackageBuilder, "QuotedIdentifierOn", BoolValue(false));
    assert Render(BoolValue(false)) == "False";
  }

  lemma ValidVardecimalStorageFormatOn()
    ensures BindsTo("VardecimalStorageFormatOn", "True", BoolValue(true))
  {
    SetRenderedValue(NewPackageBuilder, "VardecimalStorageFormatOn", BoolValue(true));
    assert Render(BoolValue(true)) == "True";
  }

  lemma ValidTwoDigitYearCutoff()
    ensures BindsTo("TwoDigitYearCutoff", "10", IntValue(10))
  {
    SetRenderedValue(NewPackageBuilder, "TwoDigitYearCutoff", IntValue(10));
    assert Render(IntValue(10)) == "10";
  }

  lemma ValidTrustworthy()
    ensures BindsTo("Trustworthy", "False", BoolValue(false))
  {
    SetRenderedValue(NewPackageBuilder, "Trustworthy", BoolValue(false));
    assert Render(BoolValue(false)) == "False";
  }

  lemma ValidTransformNoiseWords()
    ensures BindsTo("TransformNoiseWords", "True", BoolValue(true))
  {
    SetRenderedValue(NewPackageBuilder, "TransformNoiseWords", BoolValue(true));
    assert Render(BoolValue(true)) == "True";
  }

  lemma ValidTornPageProtectionOn()
    ensures BindsTo("TornPageProtectionOn", "False", BoolValue(false))
  {
    SetRenderedValue(NewPackageBuilder, "TornPageProtectionOn", BoolValue(false));
    assert Render(BoolValue(false)) == "False";
  }

  lemma ValidTargetRecoveryTimeUnit()
    ensures BindsTo("TargetRecoveryTimeUnit", "Hours", EnumValue(EnumMember(TimeUnit, 2)))
  {
    SetRenderedValue(NewPackageBuilder, "TargetRecoveryTimeUnit", EnumValue(EnumMember(TimeUnit, 2)));
    assert Render(EnumValue(EnumMember(TimeUnit, 2))) == "Hours";
  }

  lemma ValidQueryStoreStaleQueryThreshold()
    ensures BindsTo("QueryStoreStaleQueryThreshold", "42", IntValue(42))
  {
    SetRenderedValue(NewPackageBuilder, "QueryStoreStaleQueryThreshold", IntValue(42));
    assert Render(IntValue(42)) == "42";
  }

  lemma ValidTargetRecoveryTimePeriod()
    ensures BindsTo("TargetRecoveryTimePeriod", "11", IntValue(11))
  {
    SetRenderedValue(NewPackageBuilder, "TargetRecoveryTimePeriod", IntValue(11));
    assert Render(IntValue(11)) == "11";
  }

  lemma ValidServiceBrokerOption()
    ensures BindsTo("ServiceBrokerOption", "ErrorBrokerConversations", EnumValue(EnumMember(ServiceBrokerOption, 3)))
  {
    SetRenderedValue(NewPackageBuilder, "ServiceBrokerOption", EnumValue(EnumMember(ServiceBrokerOption, 3)));
    assert Render(EnumValue(EnumMember(ServiceBrokerOption, 3))) == "ErrorBrokerConversations";
  }

  lemma ValidRecursiveTriggersOn()
    ensures BindsTo("RecursiveTriggersOn", "True", BoolValue(true))
  {
    SetRenderedValue(NewPackageBuilder, "RecursiveTriggersOn", BoolValue(true));
    assert Render(BoolValue(true)) == "True";
  }

  lemma ValidDelayedDurabilityMode()
    ensures BindsTo("DelayedDurabilityMode", "Forced", EnumValue(EnumMember(DelayedDurabilityMode, 2)))
  {
    SetRenderedValue(NewPackageBuilder, "DelayedDurabilityMode", EnumValue(EnumMember(DelayedDurabilityMode, 2)));
    assert Render(EnumValue(EnumMember(DelayedDurabilityMode, 2))) == "Forced";
  }

  lemma ValidRecoveryMode()
    ensures BindsTo("RecoveryMode", "BulkLogged", EnumValue(EnumMember(RecoveryMode, 1)))
  {
    SetRenderedValue(NewPackageBuilder, "RecoveryMode", EnumValue(EnumMember(RecoveryMode, 1)));
    assert Render(EnumValue(EnumMember(RecoveryMode, 1))) == "BulkLogged";
  }

  lemma ValidReadOnly()
    ensures BindsTo("ReadOnly", "False", BoolValue(false))
  {
    SetRenderedValue(NewPackageBuilder, "ReadOnly", BoolValue(false));
    assert Render(BoolValue(false)) == "False";
  }

  lemma ValidSupplementalLoggingOn()
    ensures BindsTo("SupplementalLoggingOn", "True", BoolValue(true))
  {
    SetRenderedValue(NewPackageBuilder, "SupplementalLoggingOn", BoolValue(true));
    assert Render(BoolValue(true)) == "True";
  }

  lemma ValidDbScopedConfigParameterSniffing()
    ensures BindsTo("DbScopedConfigParameterSniffing", "False", BoolValue(false))
  {
    SetRenderedValue(NewPackageBuilder, "DbScopedConfigParameterSniffing", BoolValue(false));
    assert Render(BoolValue(false)) == "False";
  }

  lemma ValidDbScopedConfigMaxDOPSecondary()
    ensures BindsTo("DbScopedConfigMaxDOPSecondary", "12", IntValue(12))
  {
    SetRenderedValue(NewPackageBuilder, "DbScopedConfigMaxDOPSecondary", IntValue(12));
    assert Render(IntValue(12)) == "12";
  }

  lemma ValidDbScopedConfigMaxDOP()
    ensures BindsTo("DbScopedConfigMaxDOP", "13", IntValue(13))
  {
    SetRenderedValue(NewPackageBuilder, "DbScopedConfigMaxDOP", IntValue(13));
    assert Render(IntValue(13)) == "13";
  }

  lemma ValidAutoShrink()
    ensures BindsTo("AutoShrink", "True", BoolValue(true))
  {
    SetRenderedValue(NewPackageBuilder, "AutoShrink", BoolValue(true));
    assert Render(BoolValue(true)) == "True";
  }

  lemma ValidAutoCreateStatisticsIncremental()
    ensures BindsTo("AutoCreateStatisticsIncremental", "False", BoolValue(false))
  {
    SetRenderedValue(NewPackageBuilder, "AutoCreateStatisticsIncremental", BoolValue(false));
    assert Render(BoolValue(false)) == "False";
  }

  lemma ValidAutoCreateStatistics()
    ensures BindsTo("AutoCreateStatistics", "True", BoolValue(true))
  {
    SetRenderedValue(NewPackageBuilder, "AutoCreateStatistics", BoolValue(true));
    assert Render(BoolValue(true)) == "True";
  }

  lemma ValidAutoClose()
    ensures BindsTo("AutoClose", "False", BoolValue(false))
  {
    SetRenderedValue(NewPackageBuilder, "AutoClose", BoolValue(false));
    assert Render(BoolValue(false)) == "False";
  }

  lemma ValidArithAbortOn()
    ensures BindsTo("ArithAbortOn", "True", BoolValue(true))
  {
    SetRenderedValue(NewPackageBuilder, "ArithAbortOn", BoolValue(true));
    assert Render(BoolValue(true)) == "True";
  }

  lemma ValidAnsiWarningsOn()
    ensures BindsTo("AnsiWarningsOn", "False", BoolValue(false))
  {
    SetRenderedValue(NewPackageBuilder, "AnsiWarningsOn", BoolValue(false));
    assert Render(BoolValue(false)) == "False";
  }

  lemma ValidAutoUpdateStatistics()
    ensures BindsTo("AutoUpdateStatistics", "True", BoolValue(true))
  {
    SetRenderedValue(NewPackageBuilder, "AutoUpdateStatistics", BoolValue(true));
    assert Render(BoolValue(true)) == "True";
  }

  lemma ValidAnsiPaddingOn()
    ensures BindsTo("AnsiPaddingOn", "False", BoolValue(false))
  {
    SetRenderedValue(NewPackageBuilder, "AnsiPaddingOn", BoolValue(false));
    assert Render(BoolValue(false)) == "False";
  }

  lemma ValidAnsiNullDefaultOn()
    ensures BindsTo("AnsiNullDefaultOn", "True", BoolValue(true))
  {
    SetRenderedValue(NewPackageBuilder, "AnsiNullDefaultOn", BoolValue(true));
    assert Render(BoolValue(true)) == "True";
  }

  lemma ValidMemoryOptimizedElevateToSnapshot()
    ensures BindsTo("MemoryOptimizedElevateToSnapshot", "False", BoolValue(false))
  {
    SetRenderedValue(NewPackageBuilder, "MemoryOptimizedElevateToSnapshot", BoolValue(false));
    assert Render(BoolValue(false)) == "False";
  }

  lemma ValidTransactionIsolationReadCommittedSnapshot()
    ensures BindsTo("TransactionIsolationReadCommittedSnapshot", "True", BoolValue(true))
  {
    SetRenderedValue(NewPackageBuilder, "TransactionIsolationReadCommittedSnapshot", BoolValue(true));
    assert Render(BoolValue(true)) == "True";
  }

  lemma ValidAllowSnapshotIsolation()
    ensures BindsTo("AllowSnapshotIsolation", "False", BoolValue(false))
  {
    SetRenderedValue(NewPackageBuilder, "AllowSnapshotIsolation", BoolValue(false));
    assert Render(BoolValue(false)) == "False";
  }

  lemma ValidCollation()
    ensures BindsTo("Collation", "Test", StrValue("Test"))
  {
    SetRenderedValue(NewPackageBuilder, "Collation", StrValue("Test"));
    assert Render(StrValue("Test")) == "Test";
  }

  lemma ValidAnsiNullsOn()
    ensures BindsTo("AnsiNullsOn", "True", BoolValue(true))
  {
    SetRenderedValue(NewPackageBuilder, "AnsiNullsOn", BoolValue(true));
    assert Render(BoolValue(true)) == "True";
  }

  lemma ValidAutoUpdateStatisticsAsync()
    ensures BindsTo("AutoUpdateStatisticsAsync", "False", BoolValue(false))
  {
    SetRenderedValue(NewPackageBuilder, "AutoUpdateStatisticsAsync", BoolValue(false));
    assert Render(BoolValue(false)) == "False";
  }

  lemma ValidCatalogCollation()
    ensures BindsTo("CatalogCollation", "Latin1_General_100_CI_AS_KS_WS_SC", EnumValue(EnumMember(CatalogCollation, 2)))
  {
    SetRenderedValue(NewPackageBuilder, "CatalogCollation", EnumValue(EnumMember(CatalogCollation, 2)));
    assert Render(EnumValue(EnumMember(CatalogCollation, 2))) == "Latin1_General_100_CI_AS_KS_WS_SC";
  }

  lemma ValidChangeTrackingAutoCleanup()
    ensures BindsTo("ChangeTrackingAutoCleanup", "True", BoolValue(true))
  {
    SetRenderedValue(NewPackageBuilder, "ChangeTrackingAutoCleanup", BoolValue(true));
    assert Render(BoolValue(true)) == "True";
  }

  lemma ValidDbScopedConfigLegacyCardinalityEstimationSecondary()
    ensures BindsTo("DbScopedConfigLegacyCardinalityEstimationSecondary", "False", BoolValue(false))
  {
    SetRenderedValue(NewPackageBuilder, "DbScopedConfigLegacyCardinalityEstimationSecondary", BoolValue(false));
    assert Render(BoolValue(false)) == "False";
  }

  lemma ValidDbScopedConfigLegacyCardinalityEstimation()
    ensures BindsTo("DbScopedConfigLegacyCardinalityEstimation", "True", BoolValue(true))
  {
    SetRenderedValue(NewPackageBuilder, "DbScopedConfigLegacyCardinalityEstimation", BoolValue(true));
    assert Render(BoolValue(true)) == "True";
  }

  lemma ValidDBChainingOn()
    ensures BindsTo("DBChainingOn", "False", BoolValue(false))
  {
    SetRenderedValue(NewPackageBuilder, "DBChainingOn", BoolValue(false));
    assert Render(BoolValue(false)) == "False";
  }

  lemma ValidDefaultLanguage()
    ensures BindsTo("DefaultLanguage", "Test", StrValue("Test"))
  {
    SetRenderedValue(NewPackageBuilder, "DefaultLanguage", StrValue("Test"));
    assert Render(StrValue("Test")) == "Test";
  }

  lemma ValidDefaultFullTextLanguage()
    ensures BindsTo("DefaultFullTextLanguage", "Test", StrValue("Test"))
  {
    SetRenderedValue(NewPackageBuilder, "DefaultFullTextLanguage", StrValue("Test"));
    assert Render(StrValue("Test")) == "Test";
  }

  lemma ValidDateCorrelationOptimizationOn()
    ensures BindsTo("DateCorrelationOptimizationOn", "True", BoolValue(true))
  {
    SetRenderedValue(NewPackageBuilder, "DateCorrelationOptimizationOn", BoolValue(true));
    assert Render(BoolValue(true)) == "True";
  }

  lemma ValidDatabaseStateOffline()
    ensures BindsTo("DatabaseStateOffline", "False", BoolValue(false))
  {
    SetRenderedValue(NewPackageBuilder, "DatabaseStateOffline", BoolValue(false));
    assert Render(BoolValue(false)) == "False";
  }

  lemma ValidCursorDefaultGlobalScope()
    ensures BindsTo("CursorDefaultGlobalScope", "True", BoolValue(true))
  {
    SetRenderedValue(NewPackageBuilder, "CursorDefaultGlobalScope", BoolValue(true));
    assert Render(BoolValue(true)) == "True";
  }

  lemma ValidCursorCloseOnCommit()
    ensures BindsTo("CursorCloseOnCommit", "False", BoolValue(false))
  {
    SetRenderedValue(NewPackageBuilder, "CursorCloseOnCommit", BoolValue(false));
    assert Render(BoolValue(false)) == "False";
  }

  lemma ValidContainment()
    ensures BindsTo("Containment", "Partial", EnumValue(EnumMember(Containment, 1)))
  {
    SetRenderedValue(NewPackageBuilder, "Containment", EnumValue(EnumMember(Containment, 1)));
    assert Render(EnumValue(EnumMember(Containment, 1))) == "Partial";
  }

  lemma ValidConcatNullYieldsNull()
    ensures BindsTo("ConcatNullYieldsNull", "True", BoolValue(true))
  {
    SetRenderedValue(NewPackageBuilder, "ConcatNullYieldsNull", BoolValue(true));
    assert Render(BoolValue(true)) == "True";
  }

  lemma ValidCompatibilityLevel()
    ensures BindsTo("CompatibilityLevel", "9", IntValue(9))
  {
    SetRenderedValue(NewPackageBuilder, "CompatibilityLevel", IntValue(9));
    assert Render(IntValue(9)) == "9";
  }

  lemma ValidChangeTrackingRetentionUnit()
    ensures BindsTo("ChangeTrackingRetentionUnit", "Days", EnumValue(EnumMember(TimeUnit, 3)))
  {
    SetRenderedValue(NewPackageBuilder, "ChangeTrackingRetentionUnit", EnumValue(EnumMember(TimeUnit, 3)));
    assert Render(EnumValue(EnumMember(TimeUnit, 3))) == "Days";
  }

  lemma ValidChangeTrackingRetentionPeriod()
    ensures BindsTo("ChangeTrackingRetentionPeriod", "8", IntValue(8))
  {
    SetRenderedValue(NewPackageBuilder, "ChangeTrackingRetentionPeriod", IntValue(8));
    assert Render(IntValue(8)) == "8";
  }

  lemma ValidChangeTrackingEnabled()
    ensures BindsTo("ChangeTrackingEnabled", "False", BoolValue(false))
  {
    SetRenderedValue(NewPackageBuilder, "ChangeTrackingEnabled", BoolValue(false));
    assert Render(BoolValue(false)) == "False";
  }

  lemma ValidUserAccessOption()
    ensures BindsTo("UserAccessOption", "Restricted", EnumValue(EnumMember(UserAccessOption, 2)))
  {
    SetRenderedValue(NewPackageBuilder, "UserAccessOption", EnumValue(EnumMember(UserAccessOption, 2)));
    assert Render(EnumValue(EnumMember(UserAccessOption, 2))) == "Restricted";
  }

  lemma ValidWithEncryption()
    ensures BindsTo("WithEncryption", "True", BoolValue(true))
  {
    SetRenderedValue(NewPackageBuilder, "WithEncryption", BoolValue(true));
    assert Render(BoolValue(true)) == "True";
  }

  /** An unknown property name is an error. */
  lemma WithPropertyUnknownProperty()
    ensures SetProperty(NewPackageBuilder, "MyUnknownProperty", "MyValue")
         == Failure(UnknownProperty("MyUnknownProperty"))
  {
  }

  /** A value the option's type cannot parse is an error. */
  lemma WithPropertyInvalidValue()
    ensures SetProperty(NewPackageBuilder, "QueryStoreIntervalLength", "MyFancyText")
         == Failure(InvalidValue("QueryStoreIntervalLength", "MyFancyText", Int))
  {
  }

  /** The target version is recorded on the builder. */
  lemma UsingVersionSql150()
    ensures UsingVersion(NewPackageBuilder, Sql150).version == Some(Sql150)
  {
  }
}

=== FILE: coercion.dfy ===
/** Coercion of a raw property string into the declared kind of an option. */
module Coercion {
  import opened Wrappers
  import Decimal
  import Enums

  /** The declared type of an option. */
  datatype ValueKind = Bool | Int | Str | Enum(id: Enums.EnumId)

  /** A typed option value. */
  datatype Value =
    | BoolValue(b: bool)
    | IntValue(i: int)
    | StrValue(s: string)
    | EnumValue(m: Enums.EnumMember)

  /** v is a value an option of kind k can hold. */
  predicate HasKind(v: Value, k: ValueKind) {
    match k
    case Bool => v.BoolValue?
    case Int => v.IntValue?
    case Str => v.StrValue?
    case Enum(id) => v.EnumValue? && v.m.id == id && Enums.ValidMember(v.m)
  }

  /** Converts raw into a value of kind k, or None when raw is not a literal
      of that kind: booleans are exactly "True" or "False", integers follow
      the decimal literal grammar, strings are taken verbatim and enumeration
      members are named by their exact label. */
  function Coerce(k: ValueKind, raw: string): (r: Option<Value>)
    ensures r.Some? ==> HasKind(r.value, k)
    ensures k.Bool? ==> (r == Some(BoolValue(true)) <==> raw == "True")
    ensures k.Bool? ==> (r == Some(BoolValue(false)) <==> raw == "False")
    ensures k.Bool? ==> (r.None? <==> raw != "True" && raw != "False")
    ensures k.Int? ==> (r.Some? <==> Decimal.IsLiteral(raw))
    ensures k.Str? ==> r == Some(StrValue(raw))
    ensures k.Enum? ==> (r.Some? <==> raw in Enums.Labels(k.id))
    ensures k.Enum? && r.Some? ==> Enums.Label(r.value.m) == raw
  {
    match k
    case Bool =>
      if raw == "True" then Some(BoolValue(true))
      else if raw == "False" then Some(BoolValue(false))
      else None
    case Int =>
      (match Decimal.Parse(raw)
       case Some(i) => Some(IntValue(i))
       case None => None)
    case Str => Some(StrValue(raw))
    case Enum(id) =>
      (match Enums.Parse(id, raw)
       case Some(m) => Some(EnumValue(m))
       case None => None)
  }

  /** The canonical string form of a typed value: the inverse of Coerce. */
  function Render(v: Value): string
    requires v.EnumValue? ==> Enums.ValidMember(v.m)
  {
    match v
    case BoolValue(b) => if b then "True" else "False"
    case IntValue(i) => Decimal.Show(i)
    case StrValue(s) => s
    case EnumValue(m) => Enums.Label(m)
  }

  /** Every value an option can hold has a string form that coerces back to
      exactly that value. */
  lemma CoerceRender(v: Value, k: ValueKind)
    requires HasKind(v, k)
    ensures Coerce(k, Render(v)) == Some(v)
  {
    match k
    case Int => Decimal.ParseShow(v.i);
    case Enum(id) => Enums.ParseLabel(v.m);
    case _ =>
  }

  /** Conversely, an accepted string is the canonical form of the value it
      produced: always for Bool, Str and Enum, and for Int exactly when the
      literal is canonical (no '+' sign, no leading zeros, not "-0"). */
  lemma RenderCoerce(k: ValueKind, raw: string)
    requires Coerce(k, raw).Some?
    ensures !k.Int? ==> Render(Coerce(k, raw).value) == raw
    ensures k.Int? ==> (Render(Coerce(k, raw).value) == raw <==> Decimal.IsCanonical(raw))
  {
    if k.Int? {
      if Decimal.IsCanonical(raw) {
        Decimal.ShowParse(raw);
      }
    }
  }
}

=== FILE: decimal.dfy ===
/** Base-10 signed integer literals: the strict grammar the binder accepts
    for integer-kind options, the parser, and a canonical printer that the
    parser inverts. */
module Decimal {
  import opened Wrappers

  predicate IsDigit(c: char) {
    '0' <= c <= '9'
  }

  predicate AllDigits(s: string) {
    forall i :: 0 <= i < |s| ==> IsDigit(s[i])
  }

  function DigitValue(c: char): (d: nat)
    requires IsDigit(c)
    ensures d < 10
  {
    (c as int) - ('0' as int)
  }

  function DigitChar(d: nat): (c: char)
    requires d < 10
    ensures IsDigit(c) && DigitValue(c) == d
  {
    ('0' as int + d) as char
  }

  predicate IsSign(c: char) {
    c == '+' || c == '-'
  }

  /** The accepted grammar: an optional sign followed by one or more
      decimal digits, with nothing around them. */
  predicate IsLiteral(s: string) {
    if |s| > 0 && IsSign(s[0]) then |s| > 1 && AllDigits(s[1..])
    else |s| > 0 && AllDigits(s)
  }

  /** A non-empty digit string without a redundant leading zero. */
  predicate IsCanonicalDigits(d: string) {
    |d| > 0 && AllDigits(d) && (|d| > 1 ==> d[0] != '0')
  }

  /** The literals the printer produces: no '+' sign, no leading zeros and
      no "-0". */
  predicate IsCanonical(s: string) {
    if |s| > 0 && s[0] == '-' then IsCanonicalDigits(s[1..]) && s != "-0"
    else IsCanonicalDigits(s)
  }

  /** The magnitude a digit string denotes, read most significant digit first. */
  function DigitsValue(s: string): nat
    requires AllDigits(s)
  {
    if |s| == 0 then 0
    else DigitsValue(s[..|s| - 1]) * 10 + DigitValue(s[|s| - 1])
  }

  /** Parses a signed decimal literal; None for anything outside the grammar. */
  function Parse(s: string): (r: Option<int>)
    ensures r.Some? <==> IsLiteral(s)
    ensures r.Some? && s[0] == '-' ==> r.value <= 0
    ensures r.Some? && s[0] != '-' ==> r.value >= 0
  {
    if |s| > 0 && IsSign(s[0]) then
      if |s| > 1 && AllDigits(s[1..]) then
        var m: int := DigitsValue(s[1..]);
        Some(if s[0] == '-' then -m else m)
      else None
    else if |s| > 0 && AllDigits(s) then Some(DigitsValue(s))
    else None
  }

  /** The shortest digit string denoting n. */
  function ShowNat(n: nat): (s: string)
    ensures |s| > 0 && AllDigits(s)
    ensures |s| > 1 ==> s[0] != '0'
  {
    if n < 10 then [DigitChar(n)]
    else ShowNat(n / 10) + [DigitChar(n % 10)]
  }

  /** The canonical literal for i: a minus sign only when negative, no
      leading zeros. */
  function Show(i: int): (s: string)
    ensures IsLiteral(s)
    ensures IsCanonical(s)
  {
    if i < 0 then "-" + ShowNat(-i) else ShowNat(i)
  }

  lemma {:induction false} DigitsValueOfShowNat(n: nat)
    ensures DigitsValue(ShowNat(n)) == n
  {
    var s := ShowNat(n);
    if n >= 10 {
      DigitsValueOfShowNat(n / 10);
      assert s[..|s| - 1] == ShowNat(n / 10);
    }
  }

  /** Parsing the canonical literal of any integer gives that integer back. */
  lemma ParseShow(i: int)
    ensures Parse(Show(i)) == Some(i)
  {
    var s := Show(i);
    if i < 0 {
      assert s[1..] == ShowNat(-i);
      DigitsValueOfShowNat(-i);
    } else {
      DigitsValueOfShowNat(i);
    }
  }

  /** A digit string that does not start with '0' denotes a positive number. */
  lemma {:induction false} LeadingNonZeroPositive(d: string)
    requires |d| > 0 && AllDigits(d) && d[0] != '0'
    ensures DigitsValue(d) >= 1
  {
    if |d| > 1 {
      LeadingNonZeroPositive(d[..|d| - 1]);
    }
  }

  /** Printing the value of a canonical digit string gives that string back. */
  lemma {:induction false} ShowNatOfDigitsValue(d: string)
    requires IsCanonicalDigits(d)
    ensures ShowNat(DigitsValue(d)) == d
  {
    var c := d[|d| - 1];
    if |d| == 1 {
      assert DigitChar(DigitValue(c)) == c;
    } else {
      var front := d[..|d| - 1];
      LeadingNonZeroPositive(front);
      ShowNatOfDigitsValue(front);
      assert DigitChar(DigitValue(c)) == c;
      assert d == front + [c];
    }
  }

  /** Every canonical literal is the printed form of the integer it parses
      to; with ParseShow, Show and Parse are inverse bijections between the
      integers and the canonical literals. */
  lemma ShowParse(s: string)
    requires IsCanonical(s)
    ensures Parse(s).Some? && Show(Parse(s).value) == s
  {
    if s[0] == '-' {
      var d := s[1..];
      LeadingNonZeroPositive(d);
      ShowNatOfDigitsValue(d);
      assert s == "-" + d;
    } else {
      ShowNatOfDigitsValue(s);
    }
  }

  /** The integer a literal denotes: the positional value of its digits,
      negated after a '-' and unchanged after a '+' or without a sign. */
  lemma ParseSigned(d: string)
    requires |d| > 0 && AllDigits(d)
    ensures Parse(d) == Some(DigitsValue(d))
    ensures Parse("+" + d) == Some(DigitsValue(d))
    ensures Parse("-" + d) == Some(-(DigitsValue(d) as int))
  {
    assert ("+" + d)[1..] == d;
    assert ("-" + d)[1..] == d;
  }
}

=== FILE: enums.dfy ===
/** The closed enumerations that enum-kind options are coerced into, each
    given as a table of labels. A member is identified by its enumeration and
    its position in that table; labels are matched exactly. The tables hold
    the labels the option tests use together with well-known SQL Server
    labels of the same enumerations; the authoritative definitions live in
    the external model library and these tables do not claim to be complete. */
module Enums {
  import opened Wrappers

  datatype EnumId =
    | QueryStoreDesiredState
    | QueryStoreCaptureMode
    | ParameterizationOption
    | PageVerifyMode
    | NonTransactedFileStreamAccess
    | TimeUnit
    | ServiceBrokerOption
    | DelayedDurabilityMode
    | RecoveryMode
    | CatalogCollation
    | Containment
    | UserAccessOption

  function Labels(e: EnumId): seq<string> {
    match e
    case QueryStoreDesiredState => ["Off", "ReadOnly", "ReadWrite"]
    case QueryStoreCaptureMode => ["All", "Auto", "None"]
    case ParameterizationOption => ["Simple", "Forced"]
    case PageVerifyMode => ["None", "TornPageDetection", "Checksum"]
    case NonTransactedFileStreamAccess => ["Off", "ReadOnly", "Full"]
    case TimeUnit => ["Seconds", "Minutes", "Hours", "Days"]
    case ServiceBrokerOption =>
      ["EnableBroker", "DisableBroker", "NewBroker", "ErrorBrokerConversations"]
    case DelayedDurabilityMode => ["Disabled", "Allowed", "Forced"]
    case RecoveryMode => ["Full", "BulkLogged", "Simple"]
    case CatalogCollation =>
      ["DatabaseDefault", "SQL_Latin1_General_CP1_CI_AS", "Latin1_General_100_CI_AS_KS_WS_SC"]
    case Containment => ["None", "Partial"]
    case UserAccessOption => ["Multiple", "Single", "Restricted"]
  }

  /** Labels of one enumeration are pairwise distinct, so a label names at
      most one member. */
  ghost predicate Distinct(ls: seq<string>) {
    forall i, j :: 0 <= i < |ls| && 0 <= j < |ls| && i != j ==> ls[i] != ls[j]
  }

  datatype EnumMember = EnumMember(id: EnumId, ordinal: nat)

  predicate ValidMember(m: EnumMember) {
    m.ordinal < |Labels(m.id)|
  }

  function Label(m: EnumMember): string
    requires ValidMember(m)
  {
    Labels(m.id)[m.ordinal]
  }

  /** Position of the first occurrence of x in ls. */
  function IndexOf(ls: seq<string>, x: string): (r: Option<nat>)
    ensures r.None? <==> x !in ls
    ensures r.Some? ==> r.value < |ls| && ls[r.value] == x
    ensures r.Some? ==> forall j :: 0 <= j < r.value ==> ls[j] != x
  {
    if |ls| == 0 then None
    else if ls[0] == x then Some(0)
    else match IndexOf(ls[1..], x)
      case None => None
      case Some(i) => Some(i + 1)
  }

  /** Resolves a raw string against the labels of e, character for character. */
  function Parse(e: EnumId, raw: string): (r: Option<EnumMember>)
    ensures r.Some? <==> raw in Labels(e)
    ensures r.Some? ==> r.value.id == e && ValidMember(r.value) && Label(r.value) == raw
  {
    match IndexOf(Labels(e), raw)
    case None => None
    case Some(i) => Some(EnumMember(e, i))
  }

  lemma LabelsDistinct(e: EnumId)
    ensures Distinct(Labels(e))
  {
  }

  /** Parsing the label of a member gives that member back. */
  lemma ParseLabel(m: EnumMember)
    requires ValidMember(m)
    ensures Parse(m.id, Label(m)) == Some(m)
  {
    LabelsDistinct(m.id);
  }

  /** The engine versions a model can target; the version setter takes one of
      these directly, with no string coercion. Not claimed to be complete. */
  datatype SqlServerVersion =
    | Sql90 | Sql100 | Sql110 | Sql120 | Sql130 | Sql140 | Sql150 | Sql160
    | SqlAzure | SqlDw
}

=== FILE: registry.dfy ===
/** The option registry: one descriptor, a name and a declared kind, per
    bindable option of the model options type. It is a constant table rather
    than a reflective scan of the options type, and it lists the options the
    binder tests exercise; the options type may have more. */
module Registry {
  import opened Wrappers
  import opened Coercion
  import Enums

  /** A bindable option: its property name, exactly as the options type
      declares it, and its declared type. */
  datatype Descriptor = Descriptor(name: string, kind: ValueKind)

  /** The declared options, one descriptor each. This list is the reference
      that Find is proved against; it is grouped by name length the same way
      Find dispatches. */
  const Declared: seq<Descriptor> :=
    DeclaredShort + DeclaredMedium + DeclaredLong + DeclaredLonger + DeclaredVeryLong + DeclaredLongest

  const DeclaredShort: seq<Descriptor> := [
    Descriptor("ReadOnly", Bool),
    Descriptor("AutoClose", Bool),
    Descriptor("Collation", Str),
    Descriptor("AutoShrink", Bool),
    Descriptor("Trustworthy", Bool),
    Descriptor("AnsiNullsOn", Bool),
    Descriptor("Containment", Enum(Enums.Containment)),
    Descriptor("RecoveryMode", Enum(Enums.RecoveryMode)),
    Descriptor("ArithAbortOn", Bool),
    Descriptor("DBChainingOn", Bool),
    Descriptor("AnsiPaddingOn", Bool),
    Descriptor("PageVerifyMode", Enum(Enums.PageVerifyMode)),
    Descriptor("AnsiWarningsOn", Bool),
    Descriptor("WithEncryption", Bool),
    Descriptor("FullTextEnabled", Bool),
    Descriptor("DefaultLanguage", Str),
    Descriptor("NestedTriggersOn", Bool),
    Descriptor("CatalogCollation", Enum(Enums.CatalogCollation)),
    Descriptor("UserAccessOption", Enum(Enums.UserAccessOption))
  ]

  const DeclaredMedium: seq<Descriptor> := [
    Descriptor("AnsiNullDefaultOn", Bool),
    Descriptor("QuotedIdentifierOn", Bool),
    Descriptor("TwoDigitYearCutoff", Int),
    Descriptor("CompatibilityLevel", Int),
    Descriptor("NumericRoundAbortOn", Bool),
    Descriptor("HonorBrokerPriority", Bool),
    Descriptor("TransformNoiseWords", Bool),
    Descriptor("ServiceBrokerOption", Enum(Enums.ServiceBrokerOption)),
    Descriptor("RecursiveTriggersOn", Bool),
    Descriptor("CursorCloseOnCommit", Bool),
    Descriptor("TornPageProtectionOn", Bool),
    Descriptor("DbScopedConfigMaxDOP", Int),
    Descriptor("AutoCreateStatistics", Bool),
    Descriptor("AutoUpdateStatistics", Bool),
    Descriptor("DatabaseStateOffline", Bool),
    Descriptor("ConcatNullYieldsNull", Bool)
  ]

  const DeclaredLong: seq<Descriptor> := [
    Descriptor("QueryStoreCaptureMode", Enum(Enums.QueryStoreCaptureMode)),
    Descriptor("DelayedDurabilityMode", Enum(Enums.DelayedDurabilityMode)),
    Descriptor("SupplementalLoggingOn", Bool),
    Descriptor("ChangeTrackingEnabled", Bool),
    Descriptor("QueryStoreDesiredState", Enum(Enums.QueryStoreDesiredState)),
    Descriptor("ParameterizationOption", Enum(Enums.ParameterizationOption)),
    Descriptor("TargetRecoveryTimeUnit", Enum(Enums.TimeUnit)),
    Descriptor("AllowSnapshotIsolation", Bool),
    Descriptor("QueryStoreFlushInterval", Int),
    Descriptor("FileStreamDirectoryName", Str),
    Descriptor("DefaultFullTextLanguage", Str),
    Descriptor("QueryStoreIntervalLength", Int),
    Descriptor("QueryStoreMaxStorageSize", Int),
    Descriptor("TargetRecoveryTimePeriod", Int),
    Descriptor("CursorDefaultGlobalScope", Bool)
  ]

  const DeclaredLonger: seq<Descriptor> := [
    Descriptor("VardecimalStorageFormatOn", Bool),
    Descriptor("AutoUpdateStatisticsAsync", Bool),
    Descriptor("ChangeTrackingAutoCleanup", Bool),
    Descriptor("QueryStoreMaxPlansPerQuery", Int),
    Descriptor("ChangeTrackingRetentionUnit", Enum(Enums.TimeUnit)),
    Descriptor("NonTransactedFileStreamAccess", Enum(Enums.NonTransactedFileStreamAccess)),
    Descriptor("QueryStoreStaleQueryThreshold", Int),
    Descriptor("DbScopedConfigMaxDOPSecondary", Int),
    Descriptor("DateCorrelationOptimizationOn", Bool),
    Descriptor("ChangeTrackingRetentionPeriod", Int)
  ]

  const DeclaredVeryLong: seq<Descriptor> := [
    Descriptor("DbScopedConfigParameterSniffing", Bool),
    Descriptor("AutoCreateStatisticsIncremental", Bool),
    Descriptor("MemoryOptimizedElevateToSnapshot", Bool),
    Descriptor("DbScopedConfigQueryOptimizerHotfixes", Bool),
    Descriptor("DbScopedConfigParameterSniffingSecondary", Bool)
  ]

  const DeclaredLongest: seq<Descriptor> := [
    Descriptor("TransactionIsolationReadCommittedSnapshot", Bool),
    Descriptor("DbScopedConfigLegacyCardinalityEstimation", Bool),
    Descriptor("DbScopedConfigQueryOptimizerHotfixesSecondary", Bool),
    Descriptor("DbScopedConfigLegacyCardinalityEstimationSecondary", Bool)
  ]

  /** Finds the descriptor of the option named exactly name, comparing
      character for character: no trimming and no case folding, so any
      other string finds nothing. The table is split by name length only to
      keep each part cheap to reason about. */
  function Find(name: string): (r: Option<Descriptor>)
    ensures r.Some? ==> r.value.name == name
  {
    if |name| <= 16 then FindShort(name)
    else if |name| <= 20 then FindMedium(name)
    else if |name| <= 24 then FindLong(name)
    else if |name| <= 29 then FindLonger(name)
    else if |name| <= 40 then FindVeryLong(name)
    else FindLongest(name)
  }

  function FindShort(name: string): (r: Option<Descriptor>)
    ensures r.Some? ==> r.value.name == name
  {
    match |name|
    case 8 =>
      (match name
       case "ReadOnly" => Some(Descriptor("ReadOnly", Bool))
       case _ => None)
    case 9 =>
      (match name
       case "AutoClose" => Some(Descriptor("AutoClose", Bool))
       case "Collation" => Some(Descriptor("Collation", Str))
       case _ => None)
    case 10 =>
      (match name
       case "AutoShrink" => Some(Descriptor("AutoShrink", Bool))
       case _ => None)
    case 11 =>
      (match name
       case "Trustworthy" => Some(Descriptor("Trustworthy", Bool))
       case "AnsiNullsOn" => Some(Descriptor("AnsiNullsOn", Bool))
       case "Containment" => Some(Descriptor("Containment", Enum(Enums.Containment)))
       case _ => None)
    case 12 =>
      (match name
       case "RecoveryMode" => Some(Descriptor("RecoveryMode", Enum(Enums.RecoveryMode)))
       case "ArithAbortOn" => Some(Descriptor("ArithAbortOn", Bool))
       case "DBChainingOn" => Some(Descriptor("DBChainingOn", Bool))
       case _ => None)
    case 13 =>
      (match name
       case "AnsiPaddingOn" => Some(Descriptor("AnsiPaddingOn", Bool))
       case _ => None)
    case 14 =>
      (match name
       case "PageVerifyMode" => Some(Descriptor("PageVerifyMode", Enum(Enums.PageVerifyMode)))
       case "AnsiWarningsOn" => Some(Descriptor("AnsiWarningsOn", Bool))
       case "WithEncryption" => Some(Descriptor("WithEncryption", Bool))
       case _ => None)
    case 15 =>
      (match name
       case "FullTextEnabled" => Some(Descriptor("FullTextEnabled", Bool))
       case "DefaultLanguage" => Some(Descriptor("DefaultLanguage", Str))
       case _ => None)
    case 16 =>
      (match name
       case "NestedTriggersOn" => Some(Descriptor("NestedTriggersOn", Bool))
       case "CatalogCollation" => Some(Descriptor("CatalogCollation", Enum(Enums.CatalogCollation)))
       case "UserAccessOption" => Some(Descriptor("UserAccessOption", Enum(Enums.UserAccessOption)))
       case _ => None)
    case _ => None
  }

  function FindMedium(name: string): (r: Option<Descriptor>)
    ensures r.Some? ==> r.value.name == name
  {
    match |name|
    case 17 =>
      (match name
       case "AnsiNullDefaultOn" => Some(Descriptor("AnsiNullDefaultOn", Bool))
       case _ => None)
    case 18 =>
      (match name
       case "QuotedIdentifierOn" => Some(Descriptor("QuotedIdentifierOn", Bool))
       case "TwoDigitYearCutoff" => Some(Descriptor("TwoDigitYearCutoff", Int))
       case "CompatibilityLevel" => Some(Descriptor("CompatibilityLevel", Int))
       case _ => None)
    case 19 =>
      (match name
       case "NumericRoundAbortOn" => Some(Descriptor("NumericRoundAbortOn", Bool))
       case "HonorBrokerPriority" => Some(Descriptor("HonorBrokerPriority", Bool))
       case "TransformNoiseWords" => Some(Descriptor("TransformNoiseWords", Bool))
       case "ServiceBrokerOption" => Some(Descriptor("ServiceBrokerOption", Enum(Enums.ServiceBrokerOption)))
       case "RecursiveTriggersOn" => Some(Descriptor("RecursiveTriggersOn", Bool))
       case "CursorCloseOnCommit" => Some(Descriptor("CursorCloseOnCommit", Bool))
       case _ => None)
    case 20 =>
      (match name
       case "TornPageProtectionOn" => Some(Descriptor("TornPageProtectionOn", Bool))
       case "DbScopedConfigMaxDOP" => Some(Descriptor("DbScopedConfigMaxDOP", Int))
       case "AutoCreateStatistics" => Some(Descriptor("AutoCreateStatistics", Bool))
       case "AutoUpdateStatistics" => Some(Descriptor("AutoUpdateStatistics", Bool))
       case "DatabaseStateOffline" => Some(Descriptor("DatabaseStateOffline", Bool))
       case "ConcatNullYieldsNull" => Some(Descriptor("ConcatNullYieldsNull", Bool))
       case _ => None)
    case _ => None
  }

  function FindLong(name: string): (r: Option<Descriptor>)
    ensures r.Some? ==> r.value.name == name
  {
    match |name|
    case 21 =>
      (match name
       case "QueryStoreCaptureMode" => Some(Descriptor("QueryStoreCaptureMode", Enum(Enums.QueryStoreCaptureMode)))
       case "DelayedDurabilityMode" => Some(Descriptor("DelayedDurabilityMode", Enum(Enums.DelayedDurabilityMode)))
       case "SupplementalLoggingOn" => Some(Descriptor("SupplementalLoggingOn", Bool))
       case "ChangeTrackingEnabled" => Some(Descriptor("ChangeTrackingEnabled", Bool))
       case _ => None)
    case 22 =>
      (match name
       case "QueryStoreDesiredState" => Some(Descriptor("QueryStoreDesiredState", Enum(Enums.QueryStoreDesiredState)))
       case "ParameterizationOption" => Some(Descriptor("ParameterizationOption", Enum(Enums.ParameterizationOption)))
       case "TargetRecoveryTimeUnit" => Some(Descriptor("TargetRecoveryTimeUnit", Enum(Enums.TimeUnit)))
       case "AllowSnapshotIsolation" => Some(Descriptor("AllowSnapshotIsolation", Bool))
       case _ => None)
    case 23 =>
      (match name
       case "QueryStoreFlushInterval" => Some(Descriptor("QueryStoreFlushInterval", Int))
       case "FileStreamDirectoryName" => Some(Descriptor("FileStreamDirectoryName", Str))
       case "DefaultFullTextLanguage" => Some(Descriptor("DefaultFullTextLanguage", Str))
       case _ => None)
    case 24 =>
      (match name
       case "QueryStoreIntervalLength" => Some(Descriptor("QueryStoreIntervalLength", Int))
       case "QueryStoreMaxStorageSize" => Some(Descriptor("QueryStoreMaxStorageSize", Int))
       case "TargetRecoveryTimePeriod" => Some(Descriptor("TargetRecoveryTimePeriod", Int))
       case "CursorDefaultGlobalScope" => Some(Descriptor("CursorDefaultGlobalScope", Bool))
       case _ => None)
    case _ => None
  }

  function FindLonger(name: string): (r: Option<Descriptor>)
    ensures r.Some? ==> r.value.name == name
  {
    match |name|
    case 25 =>
      (match name
       case "VardecimalStorageFormatOn" => Some(Descriptor("VardecimalStorageFormatOn", Bool))
       case "AutoUpdateStatisticsAsync" => Some(Descriptor("AutoUpdateStatisticsAsync", Bool))
       case "ChangeTrackingAutoCleanup" => Some(Descriptor("ChangeTrackingAutoCleanup", Bool))
       case _ => None)
    case 26 =>
      (match name
       case "QueryStoreMaxPlansPerQuery" => Some(Descriptor("QueryStoreMaxPlansPerQuery", Int))
       case _ => None)
    case 27 =>
      (match name
       case "ChangeTrackingRetentionUnit" => Some(Descriptor("ChangeTrackingRetentionUnit", Enum(Enums.TimeUnit)))
       case _ => None)
    case 29 =>
      (match name
       case "NonTransactedFileStreamAccess" => Some(Descriptor("NonTransactedFileStreamAccess", Enum(Enums.NonTransactedFileStreamAccess)))
       case "QueryStoreStaleQueryThreshold" => Some(Descriptor("QueryStoreStaleQueryThreshold", Int))
       case "DbScopedConfigMaxDOPSecondary" => Some(Descriptor("DbScopedConfigMaxDOPSecondary", Int))
       case "DateCorrelationOptimizationOn" => Some(Descriptor("DateCorrelationOptimizationOn", Bool))
       case "ChangeTrackingRetentionPeriod" => Some(Descriptor("ChangeTrackingRetentionPeriod", Int))
       case _ => None)
    case _ => None
  }

  function FindVeryLong(name: string): (r: Option<Descriptor>)
    ensures r.Some? ==> r.value.name == name
  {
    match |name|
    case 31 =>
      (match name
       case "DbScopedConfigParameterSniffing" => Some(Descriptor("DbScopedConfigParameterSniffing", Bool))
       case "AutoCreateStatisticsIncremental" => Some(Descriptor("AutoCreateStatisticsIncremental", Bool))
       case _ => None)
    case 32 =>
      (match name
       case "MemoryOptimizedElevateToSnapshot" => Some(Descriptor("MemoryOptimizedElevateToSnapshot", Bool))
       case _ => None)
    case 36 =>
      (match name
       case "DbScopedConfigQueryOptimizerHotfixes" => Some(Descriptor("DbScopedConfigQueryOptimizerHotfixes", Bool))
       case _ => None)
    case 40 =>
      (match name
       case "DbScopedConfigParameterSniffingSecondary" => Some(Descriptor("DbScopedConfigParameterSniffingSecondary", Bool))
       case _ => None)
    case _ => None
  }

  function FindLongest(name: string): (r: Option<Descriptor>)
    ensures r.Some? ==> r.value.name == name
  {
    match |name|
    case 41 =>
      (match name
       case "TransactionIsolationReadCommittedSnapshot" => Some(Descriptor("TransactionIsolationReadCommittedSnapshot", Bool))
       case "DbScopedConfigLegacyCardinalityEstimation" => Some(Descriptor("DbScopedConfigLegacyCardinalityEstimation", Bool))
       case _ => None)
    case 45 =>
      (match name
       case "DbScopedConfigQueryOptimizerHotfixesSecondary" => Some(Descriptor("DbScopedConfigQueryOptimizerHotfixesSecondary", Bool))
       case _ => None)
    case 50 =>
      (match name
       case "DbScopedConfigLegacyCardinalityEstimationSecondary" => Some(Descriptor("DbScopedConfigLegacyCardinalityEstimationSecondary", Bool))
       case _ => None)
    case _ => None
  }

  /** Every descriptor of the group is found by its own name. */
  lemma ShortComplete(i: nat)
    requires i < |DeclaredShort|
    ensures |DeclaredShort[i].name| <= 16
    ensures FindShort(DeclaredShort[i].name) == Some(DeclaredShort[i])
  {
  }

  /** Whatever the group's search finds is a descriptor of the group. */
  lemma ShortSound(name: string)
    ensures FindShort(name).Some? ==> FindShort(name).value in DeclaredShort
  {
  }

  /** Every descriptor of the group is found by its own name. */
  lemma MediumComplete(i: nat)
    requires i < |DeclaredMedium|
    ensures 16 < |DeclaredMedium[i].name| <= 20
    ensures FindMedium(DeclaredMedium[i].name) == Some(DeclaredMedium[i])
  {
  }

  /** Whatever the group's search finds is a descriptor of the group. */
  lemma MediumSound(name: string)
    ensures FindMedium(name).Some? ==> FindMedium(name).value in DeclaredMedium
  {
  }

  /** Every descriptor of the group is found by its own name. */
  lemma LongComplete(i: nat)
    requires i < |DeclaredLong|
    ensures 20 < |DeclaredLong[i].name| <= 24
    ensures FindLong(DeclaredLong[i].name) == Some(DeclaredLong[i])
  {
  }

  /** Whatever the group's search finds is a descriptor of the group. */
  lemma LongSound(name: string)
    ensures FindLong(name).Some? ==> FindLong(name).value in DeclaredLong
  {
  }

  /** Every descriptor of the group is found by its own name. */
  lemma LongerComplete(i: nat)
    requires i < |DeclaredLonger|
    ensures 24 < |DeclaredLonger[i].name| <= 29
    ensures FindLonger(DeclaredLonger[i].name) == Some(DeclaredLonger[i])
  {
  }

  /** Whatever the group's search finds is a descriptor of the group. */
  lemma LongerSound(name: string)
    ensures FindLonger(name).Some? ==> FindLonger(name).value in DeclaredLonger
  {
  }

  /** Every descriptor of the group is found by its own name. */
  lemma VeryLongComplete(i: nat)
    requires i < |DeclaredVeryLong|
    ensures 29 < |DeclaredVeryLong[i].name| <= 40
    ensures FindVeryLong(DeclaredVeryLong[i].name) == Some(DeclaredVeryLong[i])
  {
  }

  /** Whatever the group's search finds is a descriptor of the group. */
  lemma VeryLongSound(name: string)
    ensures FindVeryLong(name).Some? ==> FindVeryLong(name).value in DeclaredVeryLong
  {
  }

  /** Every descriptor of the group is found by its own name. */
  lemma LongestComplete(i: nat)
    requires i < |DeclaredLongest|
    ensures 40 < |DeclaredLongest[i].name|
    ensures FindLongest(DeclaredLongest[i].name) == Some(DeclaredLongest[i])
  {
  }

  /** Whatever the group's search finds is a descriptor of the group. */
  lemma LongestSound(name: string)
    ensures FindLongest(name).Some? ==> FindLongest(name).value in DeclaredLongest
  {
  }

  /** The declared kind of the option named exactly name; None means the
      name is unknown. LookupDeclared states this against the reference list. */
  function Lookup(name: string): Option<ValueKind>
  {
    match Find(name)
    case None => None
    case Some(d) => Some(d.kind)
  }

  /** Whatever Find finds is declared in the reference list. */
  lemma FindSound(name: string)
    ensures Find(name).Some? ==> Find(name).value in Declared
  {
    if |name| <= 16 { ShortSound(name); }
    else if |name| <= 20 { MediumSound(name); }
    else if |name| <= 24 { LongSound(name); }
    else if |name| <= 29 { LongerSound(name); }
    else if |name| <= 40 { VeryLongSound(name); }
    else { LongestSound(name); }
  }

  /** Every declared descriptor is found by its own name. */
  lemma FindComplete(d: Descriptor)
    requires d in Declared
    ensures Find(d.name) == Some(d)
  {
    if d in DeclaredShort {
      var i :| 0 <= i < |DeclaredShort| && DeclaredShort[i] == d;
      ShortComplete(i);
    } else if d in DeclaredMedium {
      var i :| 0 <= i < |DeclaredMedium| && DeclaredMedium[i] == d;
      MediumComplete(i);
    } else if d in DeclaredLong {
      var i :| 0 <= i < |DeclaredLong| && DeclaredLong[i] == d;
      LongComplete(i);
    } else {
      FindCompleteLong(d);
    }
  }

  /** FindComplete for the three groups of the longest names. */
  lemma FindCompleteLong(d: Descriptor)
    requires d in DeclaredLonger + DeclaredVeryLong + DeclaredLongest
    ensures Find(d.name) == Some(d)
  {
    if d in DeclaredLonger {
      var i :| 0 <= i < |DeclaredLonger| && DeclaredLonger[i] == d;
      LongerComplete(i);
    } else if d in DeclaredVeryLong {
      var i :| 0 <= i < |DeclaredVeryLong| && DeclaredVeryLong[i] == d;
      VeryLongComplete(i);
    } else {
      var i :| 0 <= i < |DeclaredLongest| && DeclaredLongest[i] == d;
      LongestComplete(i);
    }
  }

  /** Find against the reference list: what it finds is declared there, and
      every declared descriptor is found by its name. */
  lemma FindDeclared(name: string)
    ensures Find(name).Some? ==> Find(name).value in Declared
    ensures forall d :: d in Declared && d.name == name ==> Find(name) == Some(d)
  {
    FindSound(name);
    forall d | d in Declared && d.name == name
      ensures Find(name) == Some(d)
    {
      FindComplete(d);
    }
  }

  /** A name has kind k exactly when the reference list declares an option of
      that name with kind k. */
  lemma LookupDeclared(name: string, k: ValueKind)
    ensures Lookup(name) == Some(k) <==> Descriptor(name, k) in Declared
  {
    FindDeclared(name);
  }

  predicate Known(name: string) {
    Lookup(name).Some?
  }

  /** Two options share the TimeUnit enumeration, and each of them accepts
      every TimeUnit label. */
  lemma SharedTimeUnit(unitLabel: string)
    requires unitLabel in Enums.Labels(Enums.TimeUnit)
    ensures Lookup("TargetRecoveryTimeUnit") == Some(Enum(Enums.TimeUnit))
    ensures Lookup("ChangeTrackingRetentionUnit") == Some(Enum(Enums.TimeUnit))
    ensures Coerce(Enum(Enums.TimeUnit), unitLabel).Some?
  {
  }
}

=== FILE: wrappers.dfy ===
/** Failure-carrying return types used instead of the exceptions the
    binder throws. */
module Wrappers {

  /** A value that may be absent. */
  datatype Option<+T> = None | Some(value: T)

  /** Either a computed value or the error that prevented computing it. */
  datatype Result<+R, +E> = Success(value: R) | Failure(error: E)
}
